=== FILE: README.md ===
# HomeINV authentication and query-parameter model

A Dafny model of the logic at the centre of the HomeINV inventory server and
its browser client:

- the bearer-token gate `authenticateToken` and the role gate `authorizeRole`
  (`authMiddleware.js`);
- the `/auth/login` and `/auth/register` handlers over a user table, with
  their own parameter typing and binding (`authRoutes.js`);
- the backend-neutral query helper: typing by key, SQL Server input binding
  and backend dispatch on `DB_TYPE` (`dbquery.js`);
- the API's own parameter typing, its fixed set of bound slots, and the
  search handlers' query text (`routes.js`);
- the client-side `ProtectedRoute` decision (`client/src/components/ProtectedRoute.js`).

JavaScript values are `Json.Value` (undefined, null, booleans, integers,
strings, objects), with JavaScript truthiness. A request body or parameter
object is a sequence of key/value pairs in `for…in` order. Handlers are pure
functions from a request, and from the user table where they read it, to a
response. A handler that writes returns the new table as well. Hashing,
password comparison, token signing and token verification are abstract
functions passed in as parameters, so is the identifier `generateUUID()`
returns, and so is the client's payload decoder (`JSON.parse(atob(…))`).
`ProtectedRoute.Decide` holds for every decoder. Only
`ProtectedRoute.DotlessTokenCrashes` assumes anything about it:
`AtobRejectsRemainderOne`, that a text of base64 letters whose length leaves
remainder 1 when divided by 4 is rejected, which every `atob` does.

Modules: `Json` (values, truthiness, property access), `Text` (ASCII case
mapping, `split`), `Sql` (type tags and typed values), `Http` (request,
response, middleware step), `AuthMiddleware`, `AuthRoutes`, `DbQuery`,
`Routes`, `ProtectedRoute`, and `Scenario`. `Scenario` puts the auth
handlers behind routes and chains them with the gates. `server.js` calls
only `setupRoutes`, never `setupAuthRoutes`, and no route file uses
`authorizeRole`. So `Scenario` and `AuthMiddleware.Guard` model these
routes and gates as if they were mounted.

Behaviours of the code that the model states rather than repairs:

- `setupAuthRoutes` puts no gate in front of `/auth/register`. Once mounted,
  any request registers any user with any role, whatever its token
  (`Scenario.RegisterUngated`).
- The scheme word of the `Authorization` header is never checked. `"Bearer"`
  and `"Bearer "` are refused with 401.
- Role comparison is exact on both sides: the server gate and the client
  guard.
- `authRoutes.js` lower-cases `Role` in its `formatQueryParams`, but its
  `executeQuery` binds `params.Role` raw. The stored role is the caller's
  text (`AuthRoutes.InsertBindsRawRole`).
- In `routes.js` the Building, Owner, Username and Role slots read `Name`,
  and the PasswordHash slot reads `Description` (`Routes.MiswiredSlots`).
- No slot binds `@IsOutOfStock` (`Routes.OutOfStockUnbound`).
- The search handlers splice `filterColumn` into the query text unchecked.
- The MariaDB branch of `executeQuery` calls `execute` on the promise that
  `mysql2/promise`'s `createConnection` returns, so every call with
  `DB_TYPE=mariadb` rejects with a TypeError (`DbQuery.ExecuteQuery`).
- `ProtectedRoute` reads the payload segment without checking the signature
  or the expiry. With a role required and an unreadable payload it throws.

Further facts about the code:

- Login has no per-account directory path. It always compares the password
  against the stored hash.
- The stored role is whatever text the caller sent, not one of a fixed set.
- `formatQueryParams` in `dbquery.js` throws on a non-string `Username`. The
  one in `authRoutes.js` throws on a non-string `Username` or `Role`. The
  model returns an error for these cases.
- The login body's password key is `password`. The registration body's key
  is `Password`.

## Model

| member | source | states |
|---|---|---|
| AuthMiddleware.HeaderToken | authMiddleware.js:8 | the extracted token never contains a space; it is undefined or empty exactly when the header is absent or no token follows its first space |
| AuthMiddleware.SecondFieldMissing | authMiddleware.js:8-9 | the second space-separated field is missing or empty iff nothing but a space or the end follows the first space |
| AuthMiddleware.AuthenticateToken | authMiddleware.js:7-16 | 401 iff no usable token; 403 iff a token is present and fails verification; otherwise next runs with `req.user` set to exactly the decoded claims; a refused request is left as it came |
| AuthMiddleware.SchemeIgnored | authMiddleware.js:8-14 | `<word> <token>` gets the same token, the same outcome and the same `req.user` as `Bearer <token>`, for every space-free word |
| AuthMiddleware.BareSchemeUnauthorized | authMiddleware.js:8-9 | a bare scheme word and a scheme word followed by one space are both answered with 401 |
| AuthMiddleware.AuthorizeRole | authMiddleware.js:18-24 | passes iff there is a user whose `role` claim is exactly the required string; otherwise 403 `{error: 'Forbidden'}`; the request is untouched |
| AuthMiddleware.Guard | authMiddleware.js:7-24 | the chained gates pass iff a usable token verifies and its role claim equals the required role; a missing token is always 401, never 403 |
| AuthMiddleware.BearerTokenMeetsRoleGate | authMiddleware.js:11-23 | a `Bearer <token>` header whose token verifies to some claims clears both gates iff those claims carry exactly the required role |
| AuthRoutes.Find | authRoutes.js:62-70 | the first row whose name lower-cases to the normalized name, or none when no row does |
| AuthRoutes.FindAppended | authRoutes.js:62-70 | after appending a matching row to a table with no match, the lookup finds the appended row |
| AuthRoutes.FormatValue | authRoutes.js:12-26 | throws iff the key is `Username` or `Role` and the value is not a string; those two are lower-cased to NVarChar(50); other kept values pass unchanged; a non-string, non-number `Image` gets the Image type |
| AuthRoutes.FormatQueryParams | authRoutes.js:9-29 | fails iff some `Username` or `Role` entry is not a string |
| AuthRoutes.FormattedId | authRoutes.js:12-13 | the formatted `ID` entry is the first input `ID`, typed as a unique identifier whatever its value, and absent iff the input has no `ID` |
| AuthRoutes.BindSlots | authRoutes.js:34-42 | binds exactly ID, Username, PasswordHash and Role; ID is a unique identifier holding the input's `ID` value when the key is present and null otherwise; the other three take the caller's raw values, Role as NVarChar(20); fails iff formatting throws |
| AuthRoutes.Login | authRoutes.js:49-97 | 400 iff a field is falsy; 500 iff the name is not a string, or the name is known and the password is not a string; 401 `Invalid credentials` iff the user is unknown or the first selected row's hash does not match; 200 iff the name is known and the password matches that row's hash, with a token signed over that row's stored name and role for 3600 seconds |
| AuthRoutes.Register | authRoutes.js:99-140 | 400 iff a field is falsy; 409 iff the lower-cased name is taken; 201 iff all fields are present strings and the name is free; only 201 changes the table, by appending one row with the lower-cased name, the hash of the password and the role as given; the bodies are `Username, password, and role are required` (400), `User already exists` (409), `Registration failed` (500) and the `User registered successfully` message (201) |
| AuthRoutes.InsertFormatsLoweredRole | authRoutes.js:18-19 | the formatted object built for the insert holds the role lower-cased |
| AuthRoutes.InsertBindsRawRole | authRoutes.js:41 | the insert binds `@Role` to the caller's text, not the lower-cased copy |
| AuthRoutes.RegisterStoresBoundRole | authRoutes.js:127-128 | the role in the appended row is the value bound to `@Role` |
| AuthRoutes.RegisterPreservesUnique | authRoutes.js:114-128 | if no two rows share a lower-cased name before registration, none do after |
| AuthRoutes.RegisterThenLogin | authRoutes.js:58-85 | with a sound hash, a registered user logging in with any spelling that lower-cases alike gets a token for the lower-cased name and the role as registered |
| AuthRoutes.LoginIgnoresCase | authRoutes.js:58-63 | two spellings of a name that lower-case alike log in identically |
| AuthRoutes.UnknownUserLikeWrongPassword | authRoutes.js:65-78 | an unknown user and a wrong password get the identical 401 response |
| DbQuery.FormatValue | dbquery.js:14-26 | branch precedence: ID, then the NVarChar(255) keys, then Username (lower-cased, throwing on a non-string), then PasswordHash and Image as NVarChar(MAX), then string and number; anything else is dropped |
| DbQuery.FormatQueryParams | dbquery.js:11-29 | fails iff some `Username` entry is not a string; never has more entries than its input |
| DbQuery.FormattedFromInput | dbquery.js:11-28 | every formatted entry stems from an input entry with the same key, with the type and value one loop iteration gives it; only a `Username` value is changed |
| DbQuery.KeptReachesOutput | dbquery.js:13-26 | every input key that is kept appears in the formatted object |
| DbQuery.BindInputs | dbquery.js:36-40 | one input per formatted key, in order, with that key's type and value |
| DbQuery.DbType | dbquery.js:9 | an unset or empty `DB_TYPE` means MSSQL; otherwise it is the setting |
| DbQuery.SelectBackend | dbquery.js:71-86 | picks the backend whose name equals the upper-cased setting, MSSQL when it is unset or empty; fails with `Unsupported database type` iff it is none of the four |
| DbQuery.SelectBackendIgnoresCase | dbquery.js:71 | a setting and its lower-cased form select the same backend |
| DbQuery.ExecuteQuery | dbquery.js:31-88 | an unsupported setting fails; MariaDB always fails with the TypeError of calling `execute` on the promise `createConnection` returns, whatever the parameters; other backends fail iff formatting fails; SQL Server gets one input per formatted key, with its type and value; Oracle gets the formatted object itself as its binds; Postgres gets the formatted `rows` entry |
| Routes.FormatValue | routes.js:8-30 | eight keys get fixed types whatever the value; otherwise strings get NVarChar(255) and numbers SmallInt; `Image` gets NVarChar(MAX) only when neither; values are never changed |
| Routes.LookupFormatted | routes.js:5-33 | reading key k of the formatted object gives the typed input value when the input has k and it is kept, and nothing otherwise |
| Routes.BindSlot | routes.js:40-53 | each slot has its declared type and holds the value of its source key in the formatted object, or null when that key is absent |
| Routes.SlotValue | routes.js:36-53 | a slot holds the caller's value for its source key when that key was passed and kept, and null otherwise |
| Routes.MisreadSlots | routes.js:43-53 | exactly five slots read a key other than their own |
| Routes.MiswiredSlots | routes.js:44-53 | Building, Owner, Username and Role hold the `Name` slot's value; PasswordHash holds the `Description` slot's value |
| Routes.BuildingIgnored | routes.js:44-45 | a parameter object with Building and Owner but no `Name` key binds null for both |
| Routes.NoParamsAllNull | routes.js:180 | a call with no parameters binds every slot to null |
| Routes.OutOfStockUnbound | routes.js:211-212 | the update names `@IsOutOfStock`, no slot has that label, and a boolean flag is dropped from the formatted object |
| Routes.SearchQuery | routes.js:68-72 | the query is the table and the column text verbatim followed by exactly one tail and nothing else: it ends in `= @searchValue` iff `exactMatch` is the string `'true'`; otherwise it ends in the `LIKE '%' + @searchValue + '%'` match |
| Routes.SearchValueSlot | routes.js:74 | the search value is bound unchanged when it is a string or a number, and as null otherwise |
| Routes.Search | routes.js:63-75 | the query text is the one built for the route's table from the request's `filterColumn` and `exactMatch`; its fixed part references only `@searchValue`, bound as the search value slot states, while the spliced `filterColumn` text can reference any bound slot |
| ProtectedRoute.PayloadSegment | client/src/components/ProtectedRoute.js:10 | the segment read is free of dots whenever the token has one, and is the text `"undefined"` when it has none |
| ProtectedRoute.PayloadOfToken | client/src/components/ProtectedRoute.js:10 | for `header.payload.signature` and `header.payload` with dot-free header and payload, the segment read is the payload |
| ProtectedRoute.DotlessTokenCrashes | client/src/components/ProtectedRoute.js:10-21 | a stored token without a dot, with a role required, always throws: its segment is the text `undefined`, which `atob` rejects |
| ProtectedRoute.Decide | client/src/components/ProtectedRoute.js:4-26 | redirect to `/login` iff there is no token; render when no role is required; crash iff a role is required and the payload is unreadable; redirect to `/` iff the readable role differs; render iff the role matches exactly |
| ProtectedRoute.OnlyPayloadRead | client/src/components/ProtectedRoute.js:8-16 | tokens with the same payload segment get the same decision, whatever their header and signature segments |
| Scenario.RegisterUngated | authRoutes.js:99-131 | a fresh user is registered (201, one row appended) whatever the request's header and identity |
| Scenario.IssuedTokenMeetsRoleGate | authRoutes.js:80-85 | after registration, a login through the route gives 200; its token, presented as `Bearer <token>`, clears the role gate iff the registered role equals the required role, for any verifier that gives back the signed role, whatever other claims it adds |

## Left out

- Token signing and verification, password hashing and comparison are abstract functions. `HashSound` asks only that a password matches its own hash. Expiry and the secret are folded into the verifier.
- The database is not executed. The user table is a sequence, and a `SELECT … WHERE LOWER(Username) = @Username` is its rows in order, matched by exact equality of the lower-cased names. SQL Server's `=` ignores trailing spaces, which the model does not: with `bob` stored, registering `bob ` gives 201 in the model where the database answers 409, and logging in as `bob ` gives 401 where the database finds `bob`. Connection failures and `EREQUEST` errors (the 500 `Database query failed` answers) are not modelled.
- The race between the existence check and the insert in registration is not modelled. Each handler is one atomic step.
- Non-string `Username`, `Password` or `Role` values that pass the truthiness check make `toLowerCase` or the hashing library throw. The model answers these with 500 and the handler's generic error text, without the library's own behaviour on non-strings.
- Only ASCII letters are case-mapped by `Text.Lower` and `Text.Upper`. JavaScript's `toLowerCase` and the database's `LOWER` use the full Unicode tables.
- Numbers are integers. Floating point, NaN and the falsiness of NaN are left out, and arrays are not among the modelled values.
- The rate limiter only configures a library, so it is left out.
- `logTransaction` is a fire-and-forget insert, so it is left out.
- `server.js` is Express wiring, so it is left out. It mounts only routes.js (server.js:6,32): the auth routes, and any route behind `authorizeRole`, are modelled as if mounted.
- `invRoutes.js`, `reportRoutes.js` and `socketRoutes.js` repeat the helpers modelled here. Their other handlers only pass SQL through.
- The React components other than `ProtectedRoute`, and the client's API service, are rendering and I/O.
- Routes.Search: states only the `searchValue` slot. The other slots of the call, `@filterColumn` among them, are bound as `Routes.BindSlot` states for `{ filterColumn, searchValue }`.
- The remaining routes.js handlers are updates and inserts whose only logic is the shared `formatQueryParams` and `executeQuery`, so they are left out. The out-of-stock update is the exception and is modelled.

=== FILE: authmiddleware.dfy ===
/** authMiddleware.js: the bearer-token gate and the role gate that protect
    the API routes. Token verification (signature, expiry, secret) is the
    abstract `verify` function. */
module AuthMiddleware {
  import opened Json
  import opened Text
  import opened Http

  /** `jwt.verify(token, secretKey)`: the decoded payload, or `None` when the
      library reports an error. The secret and the clock are folded in. */
  type Verifier = string -> Option<Claims>

  /** No usable token follows the first space of `s`: there is no space, or
      nothing but another space or the end comes after it. */
  predicate NoTokenAfterScheme(s: string) {
    || ' ' !in s
    || (var i := FirstIndex(s, ' '); i + 1 == |s| || s[i + 1] == ' ')
  }

  /** The header carries no usable token: it is absent, or no token follows
      its first space. */
  predicate LacksToken(h: Option<string>) {
    h.None? || NoTokenAfterScheme(h.value)
  }

  /** The first field is empty exactly when the text is empty or opens with
      the separator. */
  lemma FirstFieldEmpty(t: string, c: char)
    ensures FirstField(t, c) == "" <==> |t| == 0 || t[0] == c
  {
    if c !in t {
      SplitWithoutSeparator(t, c);
    }
  }

  /** The second space-separated field is missing or empty exactly when no
      token follows the first space. */
  lemma {:induction false} SecondFieldMissing(s: string)
    ensures SecondField(s, ' ').None? || SecondField(s, ' ') == Some("") <==> NoTokenAfterScheme(s)
  {
    SecondFieldPresence(s, ' ');
    if ' ' in s {
      var i := FirstIndex(s, ' ');
      var w, t := s[..i], s[i + 1..];
      assert s == w + [' '] + t;
      SecondFieldAfterWord(w, ' ', t);
      FirstFieldEmpty(t, ' ');
      assert |t| > 0 ==> t[0] == s[i + 1];
    }
  }

  /** `req.headers['authorization']?.split(' ')[1]`. */
  function HeaderToken(h: Option<string>): (r: Option<string>)
    ensures r.Some? ==> ' ' !in r.value
    ensures r.None? || r == Some("") <==> LacksToken(h)
  {
    if h.None? then None
    else
      SecondFieldMissing(h.value);
      SecondField(h.value, ' ')
  }

  /** `authenticateToken(req, res, next)`. */
  function AuthenticateToken(verify: Verifier, req: Request): (r: Step)
    // a refused request is answered as it came: `req.user` is not set
    ensures r.action.Respond? ==> r.req == req
    ensures r.action == Respond(Response(401, StatusText)) <==> LacksToken(req.authorization)
    ensures r.action == Respond(Response(403, StatusText)) <==>
      !LacksToken(req.authorization) && verify(HeaderToken(req.authorization).value).None?
    // otherwise `next()` runs with `req.user` set to the decoded claims, and
    // nothing else about the request changed
    ensures r.action.CallNext? <==>
      !LacksToken(req.authorization) && verify(HeaderToken(req.authorization).value).Some?
    ensures r.action.CallNext? ==>
      r.req == req.(user := verify(HeaderToken(req.authorization).value))
  {
    var token := HeaderToken(req.authorization);
    if token.None? || token.value == "" then Step(req, Respond(Response(401, StatusText)))
    else
      match verify(token.value)
      case None => Step(req, Respond(Response(403, StatusText)))
      case Some(claims) => Step(req.(user := Some(claims)), CallNext)
  }

  /** The scheme word is never looked at: `<word> <token>` is treated like
      `Bearer <token>` for every space-free word. */
  lemma SchemeIgnored(verify: Verifier, req: Request, word: string, token: string)
    requires ' ' !in word && ' ' !in token
    ensures HeaderToken(Some(word + " " + token)) == Some(token)
    ensures var mine := AuthenticateToken(verify, req.(authorization := Some(word + " " + token)));
      var bearer := AuthenticateToken(verify, req.(authorization := Some("Bearer " + token)));
      mine.action == bearer.action && mine.req.user == bearer.req.user
  {
    SecondFieldAfterWord(word, ' ', token);
    SecondFieldAfterWord("Bearer", ' ', token);
    assert word + " " + token == word + [' '] + token;
    assert "Bearer " + token == "Bearer" + [' '] + token;
  }

  /** A bare scheme (`"Bearer"`) and a scheme with an empty token
      (`"Bearer "`) are both refused with 401. */
  lemma BareSchemeUnauthorized(verify: Verifier, req: Request, word: string)
    requires ' ' !in word
    ensures AuthenticateToken(verify, req.(authorization := Some(word))).action ==
      Respond(Response(401, StatusText))
    ensures AuthenticateToken(verify, req.(authorization := Some(word + " "))).action ==
      Respond(Response(401, StatusText))
  {
    SecondFieldPresence(word, ' ');
    SecondFieldAfterWord(word, ' ', "");
    assert word + " " == word + [' '] + "";
  }

  /** The `role` claim, `undefined` when the payload has none. */
  function RoleClaim(claims: Claims): Value {
    if "role" in claims then claims["role"] else Undefined
  }

  /** The middleware `authorizeRole(requiredRole)` returns. */
  function AuthorizeRole(requiredRole: string, req: Request): (r: Step)
    ensures r.req == req
    // passes exactly when the role claim is that very string: no case folding
    ensures r.action.CallNext? <==>
      req.user.Some? && "role" in req.user.value && req.user.value["role"] == Str(requiredRole)
    ensures r.action.Respond? ==> r.action.response == Response(403, Error("Forbidden"))
  {
    if req.user.None? || RoleClaim(req.user.value) != Str(requiredRole) then
      Step(req, Respond(Response(403, Error("Forbidden"))))
    else Step(req, CallNext)
  }

  /** The two gates chained, as a route would mount them to demand a role.
      No route of the server's route files uses `authorizeRole`. */
  function Guard(verify: Verifier, requiredRole: string, req: Request): (r: Step)
    ensures r.action.CallNext? <==>
      && !LacksToken(req.authorization)
      && verify(HeaderToken(req.authorization).value).Some?
      && RoleClaim(verify(HeaderToken(req.authorization).value).value) == Str(requiredRole)
    // a missing token is a 401, never a 403
    ensures LacksToken(req.authorization) ==> r.action == Respond(Response(401, StatusText))
  {
    var first := AuthenticateToken(verify, req);
    if first.action.Respond? then first else AuthorizeRole(requiredRole, first.req)
  }

  /** A token presented as `Bearer <token>` that verifies to `claims` clears
      the chained gates exactly when the claims carry the required role. */
  lemma BearerTokenMeetsRoleGate(verify: Verifier, req: Request, token: string, claims: Claims, requiredRole: string)
    requires token != "" && ' ' !in token
    requires verify(token) == Some(claims)
    ensures Guard(verify, requiredRole, req.(authorization := Some("Bearer " + token))).action.CallNext? <==>
      "role" in claims && claims["role"] == Str(requiredRole)
  {
    SchemeIgnored(verify, req, "Bearer", token);
  }
}

=== FILE: authroutes.dfy ===
/** authRoutes.js: `/auth/login` and `/auth/register` over a table of user
    records, with this file's own parameter typing and binding. Password
    hashing and token signing are the abstract functions of `Crypto`. */
module AuthRoutes {
  import opened Json
  import opened Text
  import opened Sql
  import opened Http

  /** The libraries the handlers call: `bcrypt.hash`, `bcrypt.compare` and
      `jwt.sign` (payload and lifetime in seconds; the secret is folded in). */
  datatype Crypto = Crypto(
    hash: string -> string,
    matches: (string, string) -> bool,
    sign: (Claims, nat) -> string)

  /** A password matches its own hash. */
  ghost predicate HashSound(c: Crypto) {
    forall p :: c.matches(p, c.hash(p))
  }

  /** `expiresIn: '1h'`. */
  const TokenLifetime: nat := 3600

  /** A row of the `Users` table. */
  datatype UserRecord = UserRecord(id: string, username: string, passwordHash: string, role: string)

  type Table = seq<UserRecord>

  /** `WHERE LOWER(Username) = @Username` selects row `u`. */
  predicate Selects(u: UserRecord, name: string) {
    Lower(u.username) == name
  }

  predicate Known(t: Table, name: string) {
    exists i :: 0 <= i < |t| && Selects(t[i], name)
  }

  /** No two rows share a lower-cased username. */
  predicate Unique(t: Table) {
    forall i, j :: 0 <= i < j < |t| ==> Lower(t[i].username) != Lower(t[j].username)
  }

  /** `recordset[0]`: the position of the first selected row. */
  function Find(t: Table, name: string): (r: Option<nat>)
    ensures r.None? <==> !Known(t, name)
    ensures r.Some? ==> r.value < |t| && Selects(t[r.value], name)
    ensures r.Some? ==> forall j :: 0 <= j < r.value ==> !Selects(t[j], name)
  {
    if |t| == 0 then None
    else if Selects(t[0], name) then Some(0)
    else
      match Find(t[1..], name)
      case None =>
        assert forall i :: 1 <= i < |t| ==> t[i] == t[1..][i - 1];
        None
      case Some(i) =>
        assert t[i + 1] == t[1..][i];
        Some(i + 1)
  }

  /** A row appended to a table none of whose rows is selected is the one
      found. */
  lemma {:induction false} FindAppended(t: Table, u: UserRecord, name: string)
    requires !Known(t, name) && Selects(u, name)
    ensures Find(t + [u], name) == Some(|t|)
  {
    if |t| > 0 {
      assert (t + [u])[1..] == t[1..] + [u];
      assert !Known(t[1..], name) by {
        forall i | 0 <= i < |t[1..]| ensures !Selects(t[1..][i], name) {
          assert t[1..][i] == t[i + 1];
        }
      }
      FindAppended(t[1..], u, name);
      assert !Selects(t[0], name);
    }
  }

  // ---------------------------------------------------------------------
  // Parameter typing and binding of this file's `executeQuery`

  /** One iteration of this file's `formatQueryParams`. */
  function FormatValue(k: string, v: Value): (r: Result<Option<Typed>, string>)
    ensures r.Err? <==> (k == "Username" || k == "Role") && !v.Str?
    ensures r.Ok? && (k == "Username" || k == "Role") ==>
      r.value == Some(Typed(NVarChar(Chars(50)), Str(Lower(v.s))))
    ensures r.Ok? && r.value.Some? && k != "Username" && k != "Role" ==> r.value.value.value == v
    ensures k == "Image" && !v.Str? && !v.Num? ==> r == Ok(Some(Typed(Image, v)))
  {
    if k == "ID" then Ok(Some(Typed(UniqueIdentifier, v)))
    else if k == "Username" then
      if v.Str? then Ok(Some(Typed(NVarChar(Chars(50)), Str(Lower(v.s))))) else Err(NotAString)
    else if k == "PasswordHash" then Ok(Some(Typed(NVarChar(Max), v)))
    else if k == "Role" then
      if v.Str? then Ok(Some(Typed(NVarChar(Chars(50)), Str(Lower(v.s))))) else Err(NotAString)
    else if v.Str? then Ok(Some(Typed(NVarChar(Chars(255)), v)))
    else if v.Num? then Ok(Some(Typed(SmallInt, v)))
    else if k == "Image" then Ok(Some(Typed(Image, v)))
    else Ok(None)
  }

  /** A key whose value `toLowerCase` is called on. */
  predicate LowerCased(k: string) {
    k == "Username" || k == "Role"
  }

  /** This file's `formatQueryParams(params)`, which throws on a non-string
      `Username` or `Role`. */
  function FormatQueryParams(p: Params): (r: Result<Formatted, string>)
    ensures r.Err? <==> exists j :: 0 <= j < |p| && LowerCased(p[j].0) && !p[j].1.Str?
  {
    if |p| == 0 then Ok([])
    else
      match FormatValue(p[0].0, p[0].1)
      case Err(e) => Err(e)
      case Ok(head) =>
        match FormatQueryParams(p[1..])
        case Err(e) =>
          assert forall j :: 1 <= j < |p| ==> p[j] == p[1..][j - 1];
          Err(e)
        case Ok(rest) =>
          assert forall j :: 1 <= j < |p| ==> p[j] == p[1..][j - 1];
          Ok(if head.Some? then [(p[0].0, head.value)] + rest else rest)
  }

  /** The formatted `ID` entry is the first `ID` of the input, typed as a
      unique identifier, whatever its value. */
  lemma {:induction false} FormattedId(p: Params)
    requires FormatQueryParams(p).Ok?
    ensures Lookup(FormatQueryParams(p).value, "ID") ==
      (if HasKey(p, "ID") then Some(Typed(UniqueIdentifier, Get(p, "ID"))) else None)
  {
    if |p| > 0 {
      var f := FormatQueryParams(p).value;
      var head := FormatValue(p[0].0, p[0].1).value;
      var rest := FormatQueryParams(p[1..]).value;
      FormattedId(p[1..]);
      assert f == (if head.Some? then [(p[0].0, head.value)] + rest else rest);
      if p[0].0 != "ID" {
        assert HasKey(p, "ID") <==> HasKey(p[1..], "ID") by {
          if HasKey(p, "ID") {
            var i :| 0 <= i < |p| && p[i].0 == "ID";
            assert p[1..][i - 1] == p[i];
          }
          if HasKey(p[1..], "ID") {
            var i :| 0 <= i < |p[1..]| && p[1..][i].0 == "ID";
            assert p[i + 1] == p[1..][i];
          }
        }
      } else {
        assert HasKey(p, "ID");
      }
    }
  }

  /** The inputs this file's `executeQuery(query, params)` binds: `ID` from the
      formatted object, the other three straight from `params`, so the
      lower-casing of `Role` in `formatQueryParams` never reaches the query. */
  function BindSlots(p: Params): (r: Result<map<string, Typed>, string>)
    ensures r.Err? <==> exists j :: 0 <= j < |p| && LowerCased(p[j].0) && !p[j].1.Str?
    ensures r.Ok? ==> r.value.Keys == {"ID", "Username", "PasswordHash", "Role"}
    // `formattedParams.ID ? formattedParams.ID.value : null`: an `ID` key is
    // always formatted, so its value is bound even when it is undefined
    ensures r.Ok? ==> r.value["ID"] == Typed(UniqueIdentifier, if HasKey(p, "ID") then Get(p, "ID") else Null)
    ensures r.Ok? ==> r.value["Username"] == Typed(NVarChar(Chars(50)), Get(p, "Username"))
    ensures r.Ok? ==> r.value["PasswordHash"] == Typed(NVarChar(Max), Get(p, "PasswordHash"))
    ensures r.Ok? ==> r.value["Role"] == Typed(NVarChar(Chars(20)), Get(p, "Role"))
  {
    match FormatQueryParams(p)
    case Err(e) => Err(e)
    case Ok(f) =>
      FormattedId(p);
      Ok(map[
        "ID" := Typed(UniqueIdentifier, ValueOrNull(f, "ID")),
        "Username" := Typed(NVarChar(Chars(50)), Get(p, "Username")),
        "PasswordHash" := Typed(NVarChar(Max), Get(p, "PasswordHash")),
        "Role" := Typed(NVarChar(Chars(20)), Get(p, "Role"))])
  }

  // ---------------------------------------------------------------------
  // The two handlers

  const LoginFieldsRequired := "Username and password are required"
  const InvalidCredentials := "Invalid credentials"
  const AuthenticationFailed := "Authentication failed"
  const RegisterFieldsRequired := "Username, password, and role are required"
  const UserExists := "User already exists"
  const RegistrationFailed := "Registration failed"
  const Registered := "User registered successfully"

  /** The payload signed for a row: its stored username and role. */
  function ClaimsOf(u: UserRecord): Claims {
    map["Username" := Str(u.username), "role" := Str(u.role)]
  }

  /** `POST /auth/login` with body `{ Username, password }`. */
  function Login(c: Crypto, t: Table, username: Value, password: Value): (r: Response)
    ensures r.status in {200, 400, 401, 500}
    ensures r.status == 400 <==> !Truthy(username) || !Truthy(password)
    ensures r.status == 400 ==> r.body == Error(LoginFieldsRequired)
    // a non-string name, or a non-string password for a known name, makes
    // `toLowerCase` or the hash comparison throw
    ensures r.status == 500 <==>
      && Truthy(username) && Truthy(password)
      && (!username.Str? || (Known(t, Lower(username.s)) && !password.Str?))
    ensures r.status == 500 ==> r.body == Error(AuthenticationFailed)
    ensures r.status == 401 ==> r.body == Error(InvalidCredentials)
    // unknown user, or the first selected row's hash does not match
    ensures r.status == 401 <==>
      && Truthy(username) && Truthy(password) && username.Str?
      && (!Known(t, Lower(username.s)) ||
          (password.Str? && !c.matches(password.s, t[Find(t, Lower(username.s)).value].passwordHash)))
    // success: the first selected row's hash matches, and its stored username
    // and role are signed for an hour
    ensures r.status == 200 <==>
      && Truthy(username) && Truthy(password) && username.Str? && password.Str? && Known(t, Lower(username.s))
      && c.matches(password.s, t[Find(t, Lower(username.s)).value].passwordHash)
    ensures r.status == 200 ==>
      && username.Str? && password.Str? && Known(t, Lower(username.s))
      && var u := t[Find(t, Lower(username.s)).value];
         c.matches(password.s, u.passwordHash) && r.body == Token(c.sign(ClaimsOf(u), TokenLifetime))
  {
    if !Truthy(username) || !Truthy(password) then Response(400, Error(LoginFieldsRequired))
    else if !username.Str? then Response(500, Error(AuthenticationFailed))
    else
      match Find(t, Lower(username.s))
      case None => Response(401, Error(InvalidCredentials))
      case Some(i) =>
        if !password.Str? then Response(500, Error(AuthenticationFailed))
        else if !c.matches(password.s, t[i].passwordHash) then Response(401, Error(InvalidCredentials))
        else Response(200, Token(c.sign(ClaimsOf(t[i]), TokenLifetime)))
  }

  datatype RegisterOutcome = RegisterOutcome(response: Response, table: Table)

  /** The parameters of the `INSERT` statement. */
  function InsertParams(uuid: string, name: string, hashed: string, role: Value): Params {
    [("ID", Str(uuid)), ("Username", Str(name)), ("PasswordHash", Str(hashed)), ("Role", role)]
  }

  /** `POST /auth/register` with body `{ Username, Password, Role }`; `uuid` is
      the identifier `generateUUID()` produced. */
  function Register(c: Crypto, t: Table, uuid: string, username: Value, password: Value, role: Value)
    : (r: RegisterOutcome)
    ensures r.response.status in {201, 400, 409, 500}
    ensures r.response.status != 201 ==> r.table == t
    ensures r.response.status == 400 <==> !Truthy(username) || !Truthy(password) || !Truthy(role)
    ensures r.response.status == 409 <==>
      Truthy(username) && Truthy(password) && Truthy(role) && username.Str? && Known(t, Lower(username.s))
    ensures r.response.status == 201 <==>
      && Truthy(username) && Truthy(password) && Truthy(role)
      && username.Str? && password.Str? && role.Str? && !Known(t, Lower(username.s))
    // exactly one row is appended: lower-cased name, hashed password, role as given
    ensures r.response.status == 201 ==>
      r.table == t + [UserRecord(uuid, Lower(username.s), c.hash(password.s), role.s)]
    ensures r.response.status == 400 ==> r.response.body == Error(RegisterFieldsRequired)
    ensures r.response.status == 409 ==> r.response.body == Error(UserExists)
    ensures r.response.status == 500 ==> r.response.body == Error(RegistrationFailed)
    ensures r.response.status == 201 ==> r.response.body == Message(Registered)
  {
    if !Truthy(username) || !Truthy(password) || !Truthy(role) then
      RegisterOutcome(Response(400, Error(RegisterFieldsRequired)), t)
    else if !username.Str? then RegisterOutcome(Response(500, Error(RegistrationFailed)), t)
    else
      var name := Lower(username.s);
      if Find(t, name).Some? then RegisterOutcome(Response(409, Error(UserExists)), t)
      else if !password.Str? then RegisterOutcome(Response(500, Error(RegistrationFailed)), t)
      else
        var hashed := c.hash(password.s);
        var p := InsertParams(uuid, name, hashed, role);
        assert p[1] == ("Username", Str(name)) && p[3] == ("Role", role);
        match BindSlots(p)
        case Err(_) => RegisterOutcome(Response(500, Error(RegistrationFailed)), t)
        case Ok(_) =>
          RegisterOutcome(Response(201, Message(Registered)), t + [UserRecord(uuid, name, hashed, role.s)])
  }

  /** The formatted object built for the `INSERT` holds a lower-cased copy
      of the role. */
  lemma {:induction false} InsertFormatsLoweredRole(uuid: string, name: string, hashed: string, role: string)
    ensures var p := InsertParams(uuid, name, hashed, Str(role));
      && FormatQueryParams(p).Ok?
      && Lookup(FormatQueryParams(p).value, "Role") == Some(Typed(NVarChar(Chars(50)), Str(Lower(role))))
  {
    var p := InsertParams(uuid, name, hashed, Str(role));
    var roleEntry := ("Role", Typed(NVarChar(Chars(50)), Str(Lower(role))));
    var q3: Params := [("Role", Str(role))];
    var q2: Params := [("PasswordHash", Str(hashed))] + q3;
    var q1: Params := [("Username", Str(name))] + q2;
    assert p == [("ID", Str(uuid))] + q1;
    assert p[1..] == q1 && q1[1..] == q2 && q2[1..] == q3 && q3[1..] == [];
    assert FormatQueryParams(q3) == Ok([roleEntry]) by {
      assert FormatValue("Role", Str(role)) == Ok(Some(roleEntry.1));
      assert FormatQueryParams(q3[1..]) == Ok([]);
      assert [roleEntry] + [] == [roleEntry];
    }
    var f2 := FormatQueryParams(q2).value;
    assert f2 == [f2[0], roleEntry];
    var f1 := FormatQueryParams(q1).value;
    assert f1 == [f1[0]] + f2;
    var f := FormatQueryParams(p).value;
    assert f == [f[0]] + f1;
    assert Lookup(f2, "Role") == Some(roleEntry.1);
    assert Lookup(f1, "Role") == Lookup(f2, "Role");
    assert Lookup(f, "Role") == Lookup(f1, "Role");
  }

  /** The `INSERT` binds `@Role` to the caller's text, while the formatted
      object it builds along the way holds a lower-cased copy that is never
      read. */
  lemma InsertBindsRawRole(uuid: string, name: string, hashed: string, role: string)
    ensures var p := InsertParams(uuid, name, hashed, Str(role));
      && BindSlots(p).Ok?
      && BindSlots(p).value["Role"].value == Str(role)
      && Lookup(FormatQueryParams(p).value, "Role") == Some(Typed(NVarChar(Chars(50)), Str(Lower(role))))
  {
    var p := InsertParams(uuid, name, hashed, Str(role));
    InsertFormatsLoweredRole(uuid, name, hashed, role);
    assert Get(p, "Role") == Get(p[1..], "Role") == Get(p[1..][1..], "Role") == Get(p[1..][1..][1..], "Role");
  }

  /** The stored role is the one bound to `@Role`: the caller's text, not
      the lower-cased copy. */
  lemma RegisterStoresBoundRole(c: Crypto, t: Table, uuid: string, username: string, password: string, role: string)
    requires Register(c, t, uuid, Str(username), Str(password), Str(role)).response.status == 201
    ensures var p := InsertParams(uuid, Lower(username), c.hash(password), Str(role));
      && BindSlots(p).Ok?
      && Str(Register(c, t, uuid, Str(username), Str(password), Str(role)).table[|t|].role)
         == BindSlots(p).value["Role"].value
  {
    InsertBindsRawRole(uuid, Lower(username), c.hash(password), role);
  }

  /** Registration keeps usernames unique up to case. */
  lemma RegisterPreservesUnique(c: Crypto, t: Table, uuid: string, username: Value, password: Value, role: Value)
    requires Unique(t)
    ensures Unique(Register(c, t, uuid, username, password, role).table)
  {
    var r := Register(c, t, uuid, username, password, role);
    if r.response.status == 201 {
      var t' := r.table;
      LowerIdempotent(username.s);
      forall i, j | 0 <= i < j < |t'| ensures Lower(t'[i].username) != Lower(t'[j].username) {
        if j == |t| {
          assert !Selects(t[i], Lower(username.s));
        }
      }
    }
  }

  /** A registered user logs in with the same password under any spelling
      of the name that lower-cases alike, and receives a token for the stored
      lower-cased name and the role as registered. */
  lemma RegisterThenLogin(c: Crypto, t: Table, uuid: string, username: string, password: string,
                          role: string, spelling: string)
    requires HashSound(c)
    requires Register(c, t, uuid, Str(username), Str(password), Str(role)).response.status == 201
    requires Lower(spelling) == Lower(username)
    ensures Login(c, Register(c, t, uuid, Str(username), Str(password), Str(role)).table, Str(spelling), Str(password))
      == Response(200, Token(c.sign(map["Username" := Str(Lower(username)), "role" := Str(role)], TokenLifetime)))
  {
    var u := UserRecord(uuid, Lower(username), c.hash(password), role);
    LowerIdempotent(username);
    assert Selects(u, Lower(username));
    FindAppended(t, u, Lower(username));
    assert |spelling| == |username|;
  }

  /** Any spelling of a name that lower-cases alike logs in the same way. */
  lemma LoginIgnoresCase(c: Crypto, t: Table, a: string, b: string, password: Value)
    requires Lower(a) == Lower(b)
    ensures Login(c, t, Str(a), password) == Login(c, t, Str(b), password)
  {
    assert |a| == |b|;
  }

  /** An unknown user and a known user with a wrong password get the same
      answer. */
  lemma UnknownUserLikeWrongPassword(c: Crypto, t: Table, u1: string, p1: string, u2: string, p2: string)
    requires u1 != "" && p1 != "" && u2 != "" && p2 != ""
    requires !Known(t, Lower(u1))
    requires Known(t, Lower(u2)) && !c.matches(p2, t[Find(t, Lower(u2)).value].passwordHash)
    ensures Login(c, t, Str(u1), Str(p1)) == Login(c, t, Str(u2), Str(p2)) == Response(401, Error(InvalidCredentials))
  {
  }
}

=== FILE: dbquery.dfy ===
/** dbquery.js: the backend-neutral query helper. Parameters are typed by key
    (`formatQueryParams`), bound one by one for SQL Server, and the backend is
    chosen by the `DB_TYPE` setting. */
module DbQuery {
  import opened Json
  import opened Text
  import opened Sql

  /** The column types this helper fixes by key, whatever the value's type. */
  const KeyedTypes: map<string, SqlType> := map[
    "ID" := UniqueIdentifier,
    "Name" := NVarChar(Chars(255)),
    "Description" := NVarChar(Chars(255)),
    "Building" := NVarChar(Chars(255)),
    "Owner" := NVarChar(Chars(255)),
    "Role" := NVarChar(Chars(255)),
    "Location" := NVarChar(Chars(255)),
    "Route" := NVarChar(Chars(255)),
    "Username" := NVarChar(Chars(50)),
    "PasswordHash" := NVarChar(Max),
    "Image" := NVarChar(Max)
  ]

  /** One iteration of the `formatQueryParams` loop: `Ok(None)` means the key
      is not copied into the formatted object. */
  function FormatValue(k: string, v: Value): (r: Result<Option<Typed>, string>)
    ensures r.Err? <==> k == "Username" && !v.Str?
    ensures r.Err? ==> r.error == NotAString
    ensures r.Ok? && k in KeyedTypes ==> r.value.Some? && r.value.value.ty == KeyedTypes[k]
    ensures r.Ok? && k !in KeyedTypes ==>
      && (r.value.Some? <==> v.Str? || v.Num?)
      && (v.Str? ==> r.value.value.ty == NVarChar(Chars(255)))
      && (v.Num? ==> r.value.value.ty == Int)
    ensures r.Ok? && r.value.Some? && k != "Username" ==> r.value.value.value == v
    ensures r.Ok? && k == "Username" ==> r.value == Some(Typed(NVarChar(Chars(50)), Str(Lower(v.s))))
  {
    if k == "ID" then Ok(Some(Typed(UniqueIdentifier, v)))
    else if k in ["Name", "Description", "Building", "Owner", "Role", "Location", "Route"] then
      Ok(Some(Typed(NVarChar(Chars(255)), v)))
    else if k == "Username" then
      if v.Str? then Ok(Some(Typed(NVarChar(Chars(50)), Str(Lower(v.s))))) else Err(NotAString)
    else if k in ["PasswordHash", "Image"] then Ok(Some(Typed(NVarChar(Max), v)))
    else if v.Str? then Ok(Some(Typed(NVarChar(Chars(255)), v)))
    else if v.Num? then Ok(Some(Typed(Int, v)))
    else Ok(None)
  }

  /** A key `formatQueryParams` keeps: a keyed column, or a string or number. */
  predicate Kept(k: string, v: Value) {
    k in KeyedTypes || v.Str? || v.Num?
  }

  /** An output entry `e` stems from input entry `j`: same key, the type and
      value one loop iteration gives that entry, a kept value, and the value
      unchanged unless it is a lower-cased `Username`. */
  predicate FromInput(p: Params, j: int, e: (string, Typed))
    requires 0 <= j < |p|
  {
    && p[j].0 == e.0
    && FormatValue(p[j].0, p[j].1) == Ok(Some(e.1))
    && Kept(p[j].0, p[j].1)
    && (e.1.value == p[j].1 ||
        (p[j].0 == "Username" && p[j].1.Str? && e.1.value == Str(Lower(p[j].1.s))))
  }

  /** `e` stems from some input entry. */
  predicate FromSomeInput(p: Params, e: (string, Typed)) {
    exists j :: 0 <= j < |p| && FromInput(p, j, e)
  }

  /** `formatQueryParams(params)`: the formatted object, or the error the
      returned promise is rejected with. */
  function FormatQueryParams(p: Params): (r: Result<Formatted, string>)
    ensures r.Err? <==> exists j :: 0 <= j < |p| && p[j].0 == "Username" && !p[j].1.Str?
    ensures r.Ok? ==> |r.value| <= |p|
  {
    if |p| == 0 then Ok([])
    else
      match FormatValue(p[0].0, p[0].1)
      case Err(e) => Err(e)
      case Ok(head) =>
        match FormatQueryParams(p[1..])
        case Err(e) => Err(e)
        case Ok(rest) => Ok(if head.Some? then [(p[0].0, head.value)] + rest else rest)
  }

  /** Every formatted entry stems from an input entry with the same key, and
      only a `Username` value is changed on the way. */
  lemma {:induction false} FormattedFromInput(p: Params)
    requires FormatQueryParams(p).Ok?
    ensures var f := FormatQueryParams(p).value;
      forall i :: 0 <= i < |f| ==> FromSomeInput(p, f[i])
  {
    if |p| > 0 {
      var f := FormatQueryParams(p).value;
      var head := FormatValue(p[0].0, p[0].1).value;
      var rest := FormatQueryParams(p[1..]).value;
      FormattedFromInput(p[1..]);
      var off := if head.Some? then 1 else 0;
      assert f == (if head.Some? then [(p[0].0, head.value)] + rest else rest);
      forall i | 0 <= i < |f|
        ensures FromSomeInput(p, f[i])
      {
        if i < off {
          assert FromInput(p, 0, f[i]);
        } else {
          assert f[i] == rest[i - off];
          assert FromSomeInput(p[1..], rest[i - off]);
          var j :| 0 <= j < |p[1..]| && FromInput(p[1..], j, rest[i - off]);
          assert p[1..][j] == p[j + 1];
          assert FromInput(p, j + 1, f[i]);
        }
      }
    } else {
      assert FormatQueryParams(p).value == [];
    }
  }

  /** Every input entry the loop keeps reaches the formatted object. */
  lemma {:induction false} KeptReachesOutput(p: Params)
    requires FormatQueryParams(p).Ok?
    ensures var f := FormatQueryParams(p).value;
      forall j :: 0 <= j < |p| && Kept(p[j].0, p[j].1) ==> exists i :: 0 <= i < |f| && f[i].0 == p[j].0
  {
    if |p| > 0 {
      var f := FormatQueryParams(p).value;
      var head := FormatValue(p[0].0, p[0].1).value;
      var rest := FormatQueryParams(p[1..]).value;
      KeptReachesOutput(p[1..]);
      var off := if head.Some? then 1 else 0;
      assert f == (if head.Some? then [(p[0].0, head.value)] + rest else rest);
      forall j | 0 <= j < |p| && Kept(p[j].0, p[j].1)
        ensures exists i :: 0 <= i < |f| && f[i].0 == p[j].0
      {
        if j == 0 {
          assert f[0].0 == p[0].0;
        } else {
          assert p[1..][j - 1] == p[j];
          var i :| 0 <= i < |rest| && rest[i].0 == p[j].0;
          assert f[i + off] == rest[i];
        }
      }
    }
  }

  /** The `for…in` loop of `executeMSSQLQuery`: one `request.input` per
      formatted key, in order. The loop's truthiness test always passes,
      because every formatted entry is an object. */
  method BindInputs(f: Formatted) returns (inputs: seq<Input>)
    ensures |inputs| == |f|
    ensures forall i :: 0 <= i < |f| ==>
      inputs[i].name == f[i].0 && inputs[i].ty == f[i].1.ty && inputs[i].value == f[i].1.value
  {
    inputs := [];
    var i := 0;
    while i < |f|
      invariant 0 <= i <= |f|
      invariant |inputs| == i
      invariant forall j :: 0 <= j < i ==>
        inputs[j].name == f[j].0 && inputs[j].ty == f[j].1.ty && inputs[j].value == f[j].1.value
    {
      var (key, entry) := f[i];
      inputs := inputs + [Input(key, entry.ty, entry.value)];
      i := i + 1;
    }
  }

  datatype Backend = MSSQL | Oracle | MariaDB | Postgres

  /** The name `DB_TYPE` must upper-case to for each backend. */
  function BackendName(b: Backend): string {
    match b
    case MSSQL => "MSSQL"
    case Oracle => "ORACLE"
    case MariaDB => "MARIADB"
    case Postgres => "POSTGRES"
  }

  /** `process.env.DB_TYPE || 'MSSQL'`: an unset or empty setting means SQL Server. */
  function DbType(env: Option<string>): (s: string)
    ensures env.None? || env.value == "" ==> s == "MSSQL"
    ensures env.Some? && env.value != "" ==> s == env.value
  {
    if env.Some? && env.value != "" then env.value else "MSSQL"
  }

  const Unsupported := "Unsupported database type"

  /** The `switch` of `executeQuery`. */
  function SelectBackend(env: Option<string>): (r: Result<Backend, string>)
    ensures r.Ok? ==> BackendName(r.value) == Upper(DbType(env))
    ensures r.Err? <==> Upper(DbType(env)) !in {"MSSQL", "ORACLE", "MARIADB", "POSTGRES"}
    ensures r.Err? ==> r.error == Unsupported
    ensures env.None? || env.value == "" ==> r == Ok(MSSQL)
  {
    var name := Upper(DbType(env));
    if name == "MSSQL" then Ok(MSSQL)
    else if name == "ORACLE" then Ok(Oracle)
    else if name == "MARIADB" then Ok(MariaDB)
    else if name == "POSTGRES" then Ok(Postgres)
    else Err(Unsupported)
  }

  /** The setting is matched without regard to case. */
  lemma SelectBackendIgnoresCase(s: string)
    ensures SelectBackend(Some(Lower(s))) == SelectBackend(Some(s))
  {
    UpperOfLower(s);
  }

  /** What the chosen driver is handed for the parameters. */
  datatype DriverCall =
    | MssqlInputs(inputs: seq<Input>)     // one `request.input` per formatted key
    | OracleBinds(binds: Formatted)       // the formatted object itself
    | PostgresValues(rows: Option<Typed>) // `binds.rows`: the entry keyed "rows", if any

  /** The TypeError of the MariaDB branch: `mysql2/promise`'s
      `createConnection(config)` returns a promise, which has no `execute`. */
  const ExecuteOnPromise := "TypeError: mysql.createConnection(...).execute is not a function"

  /** `executeQuery(config, query, params)` up to the driver call. */
  method ExecuteQuery(env: Option<string>, p: Params) returns (r: Result<DriverCall, string>)
    ensures SelectBackend(env).Err? ==> r == Err(Unsupported)
    // the MariaDB branch throws before the query or the parameters reach a driver
    ensures SelectBackend(env) == Ok(MariaDB) ==> r == Err(ExecuteOnPromise)
    ensures SelectBackend(env).Ok? && SelectBackend(env) != Ok(MariaDB) ==>
      (r.Err? <==> FormatQueryParams(p).Err?)
    ensures SelectBackend(env) == Ok(MSSQL) && r.Ok? ==>
      r.value.MssqlInputs? && |r.value.inputs| == |FormatQueryParams(p).value| &&
      forall i :: 0 <= i < |r.value.inputs| ==>
        r.value.inputs[i].name == FormatQueryParams(p).value[i].0 &&
        r.value.inputs[i].ty == FormatQueryParams(p).value[i].1.ty &&
        r.value.inputs[i].value == FormatQueryParams(p).value[i].1.value
    ensures SelectBackend(env) == Ok(Oracle) && r.Ok? ==>
      r == Ok(OracleBinds(FormatQueryParams(p).value))
    ensures SelectBackend(env) == Ok(Postgres) && r.Ok? ==>
      r == Ok(PostgresValues(Lookup(FormatQueryParams(p).value, "rows")))
  {
    var backend := SelectBackend(env);
    if backend.Err? {
      return Err(backend.error);
    }
    if backend.value == MariaDB {
      return Err(ExecuteOnPromise);
    }
    var formatted := FormatQueryParams(p);
    if formatted.Err? {
      return Err(formatted.error);
    }
    if backend.value == MSSQL {
      var inputs := BindInputs(formatted.value);
      r := Ok(MssqlInputs(inputs));
    } else if backend.value == Oracle {
      r := Ok(OracleBinds(formatted.value));
    } else {
      r := Ok(PostgresValues(Lookup(formatted.value, "rows")));
    }
  }
}

=== FILE: http.dfy ===
/** The slice of an Express request and response the auth code touches. */
module Http {
  import opened Json

  /** A decoded token payload: a JSON object. */
  type Claims = map<string, Value>

  /** `req`: the raw `Authorization` header, the parsed JSON body, and
      `req.user`, which the token middleware fills in. */
  datatype Request = Request(authorization: Option<string>, body: Params, user: Option<Claims>)

  datatype Body =
    | StatusText                // `res.sendStatus(code)`: the status line only
    | Error(error: string)      // `{ error }`
    | Message(message: string)  // `{ message }`
    | Token(token: string)      // `{ token }`

  datatype Response = Response(status: int, body: Body)

  /** What a middleware does with a request: answer it, or hand it on with
      `next()`. */
  datatype Action = Respond(response: Response) | CallNext

  /** The request as the next handler sees it, and the action taken. */
  datatype Step = Step(req: Request, action: Action)
}

=== FILE: json.dfy ===
/** JavaScript values as they reach the server (request bodies, query strings,
    decoded token payloads) and the few JavaScript operators the handlers apply
    to them: truthiness, `typeof`, property access and template interpolation. */
module Json {

  datatype Option<+T> = None | Some(value: T)

  datatype Result<+T, +E> = Ok(value: T) | Err(error: E)

  /** A JavaScript value. Numbers are integers here: fractions and NaN are
      not modelled. */
  datatype Value =
    | Undefined
    | Null
    | Bool(b: bool)
    | Num(n: int)
    | Str(s: string)
    | Obj(fields: map<string, Value>)

  /** A JavaScript object seen as the ordered list of its own keys, as `for…in`
      visits them. */
  type Params = seq<(string, Value)>

  /** An object's keys are distinct. */
  predicate DistinctKeys(p: Params) {
    forall i, j :: 0 <= i < j < |p| ==> p[i].0 != p[j].0
  }

  /** The TypeError `value.toLowerCase()` throws on a non-string. */
  const NotAString := "TypeError: toLowerCase is not a function"

  /** JavaScript truthiness (`if (x)`, `!x`). */
  predicate Truthy(v: Value) {
    match v
    case Undefined => false
    case Null => false
    case Bool(b) => b
    case Num(n) => n != 0
    case Str(s) => s != ""
    case Obj(_) => true
  }

  /** The key `k` of an object given as an ordered key list; absent keys read
      as `undefined`, like a JavaScript property access. */
  function Get(p: Params, k: string): (v: Value)
    ensures v != Undefined ==> exists i :: 0 <= i < |p| && p[i].0 == k && p[i].1 == v
    ensures (forall i :: 0 <= i < |p| ==> p[i].0 != k) ==> v == Undefined
  {
    if |p| == 0 then Undefined
    else if p[0].0 == k then p[0].1
    else Get(p[1..], k)
  }

  predicate HasKey(p: Params, k: string) {
    exists i :: 0 <= i < |p| && p[i].0 == k
  }

  /** Property access `v.k`. `None` is the TypeError that reading a property
      of `undefined` or `null` throws. */
  function Property(v: Value, k: string): (r: Option<Value>)
    ensures r.None? <==> v.Undefined? || v.Null?
    ensures v.Obj? && k !in v.fields ==> r == Some(Undefined)
  {
    match v
    case Undefined => None
    case Null => None
    case Obj(m) => Some(if k in m then m[k] else Undefined)
    case _ => Some(Undefined)
  }

  /** Decimal rendering of an integer, as `String(n)` writes it. */
  function NatToString(n: nat): (r: string)
    ensures |r| >= 1
    ensures forall i :: 0 <= i < |r| ==> '0' <= r[i] <= '9'
  {
    var d := [(48 + n % 10) as char];
    if n < 10 then d else NatToString(n / 10) + d
  }

  function IntToString(n: int): string {
    if n < 0 then "-" + NatToString(-n) else NatToString(n)
  }

  /** The text `${v}` produces inside a template literal. */
  function Interpolate(v: Value): (r: string)
    ensures v.Str? ==> r == v.s
  {
    match v
    case Undefined => "undefined"
    case Null => "null"
    case Bool(b) => if b then "true" else "false"
    case Num(n) => IntToString(n)
    case Str(s) => s
    case Obj(_) => "[object Object]"
  }
}

=== FILE: protectedroute.dfy ===
/** client/src/components/ProtectedRoute.js: the browser-side guard in front
    of a page. It reads the stored token, decodes its payload segment without
    checking the signature or the expiry, and compares the `role` claim. */
module ProtectedRoute {
  import opened Json
  import opened Text

  /** What the component renders. `Crash` is the TypeError of reading `.role`
      from an undecoded (`undefined`) or `null` payload. */
  datatype View = RedirectToLogin | RedirectToHome | RenderChildren | Crash

  /** `JSON.parse(atob(segment))`: the parsed value, or `None` when either
      call throws (the `catch` leaves `decodedToken` undefined). */
  type Decoder = string -> Option<Value>

  /** A character of the base64 alphabet. */
  predicate Base64Char(ch: char) {
    'A' <= ch <= 'Z' || 'a' <= ch <= 'z' || '0' <= ch <= '9' || ch == '+' || ch == '/'
  }

  /** The one fixed behaviour of `atob` the decision depends on: the
      forgiving-base64 decode fails on a text of base64 letters only whose
      length leaves remainder 1 when divided by 4, so `JSON.parse` is never
      reached. */
  ghost predicate AtobRejectsRemainderOne(decode: Decoder) {
    forall s: string ::
      |s| % 4 == 1 && (forall i :: 0 <= i < |s| ==> Base64Char(s[i])) ==> decode(s) == None
  }

  /** `localStorage.getItem('token')` is truthy. */
  predicate HasToken(token: Option<string>) {
    token.Some? && token.value != ""
  }

  /** The `role` prop is truthy. */
  predicate NeedsRole(role: Option<string>) {
    role.Some? && role.value != ""
  }

  /** `token.split('.')[1]`, which `atob` receives as the text "undefined"
      when the token has no dot. */
  function PayloadSegment(token: string): (s: string)
    ensures '.' in token ==> '.' !in s
    ensures '.' !in token ==> s == "undefined"
  {
    SecondFieldPresence(token, '.');
    match SecondField(token, '.')
    case Some(segment) => segment
    case None => "undefined"
  }

  /** `decodedToken`, `None` standing for `undefined`. */
  function Decoded(decode: Decoder, token: Option<string>): Option<Value> {
    if HasToken(token) then decode(PayloadSegment(token.value)) else None
  }

  /** The payload's `role` is exactly the string `r`. */
  predicate ClaimsRole(payload: Option<Value>, r: string) {
    payload.Some? && payload.value.Obj? && "role" in payload.value.fields &&
    payload.value.fields["role"] == Str(r)
  }

  /** Reading `role` from the payload throws. */
  predicate RoleUnreadable(payload: Option<Value>) {
    payload.None? || payload.value == Undefined || payload.value == Null
  }

  /** The component's decision. */
  function Decide(decode: Decoder, token: Option<string>, role: Option<string>): (v: View)
    ensures v == RedirectToLogin <==> !HasToken(token)
    ensures HasToken(token) && !NeedsRole(role) ==> v == RenderChildren
    ensures v == Crash <==>
      HasToken(token) && NeedsRole(role) && RoleUnreadable(Decoded(decode, token))
    ensures v == RenderChildren <==>
      HasToken(token) && (!NeedsRole(role) || ClaimsRole(Decoded(decode, token), role.value))
    ensures v == RedirectToHome <==>
      && HasToken(token) && NeedsRole(role)
      && !RoleUnreadable(Decoded(decode, token)) && !ClaimsRole(Decoded(decode, token), role.value)
  {
    var decoded := Decoded(decode, token);
    if !HasToken(token) then RedirectToLogin
    else if !NeedsRole(role) then RenderChildren
    else
      match decoded
      case None => Crash
      case Some(payload) =>
        match Property(payload, "role")
        case None => Crash
        case Some(claimed) => if claimed != Str(role.value) then RedirectToHome else RenderChildren
  }

  /** A stored token without a dot makes the payload segment the text
      "undefined", nine base64 letters that `atob` rejects: whenever a role is
      required the page throws, whatever the token and the role. */
  lemma DotlessTokenCrashes(decode: Decoder, token: string, role: string)
    requires AtobRejectsRemainderOne(decode)
    requires token != "" && '.' !in token && role != ""
    ensures Decide(decode, Some(token), Some(role)) == Crash
  {
    var segment := PayloadSegment(token);
    assert segment == "undefined";
    assert |segment| % 4 == 1;
    assert forall i :: 0 <= i < |segment| ==> Base64Char(segment[i]);
    assert decode(segment) == None;
  }

  /** The first field of `w c t`, for a separator-free `w`, is `w`. */
  lemma FirstFieldOfWord(w: string, c: char, t: string)
    requires c !in w
    ensures FirstField(w + [c] + t, c) == w
  {
    SplitAfterWord(w, c, t);
    assert c in w + [c] + t by { assert (w + [c] + t)[|w|] == c; }
  }

  /** The segment read is the one between the first and the second dot:
      the payload of `header.payload.signature`, and of `header.payload`. */
  lemma PayloadOfToken(header: string, payload: string, sig: string)
    requires '.' !in header && '.' !in payload
    ensures PayloadSegment(header + "." + payload + "." + sig) == payload
    ensures PayloadSegment(header + "." + payload) == payload
  {
    var t := header + "." + payload + "." + sig;
    assert t == header + ['.'] + (payload + ['.'] + sig);
    SecondFieldAfterWord(header, '.', payload + ['.'] + sig);
    FirstFieldOfWord(payload, '.', sig);
    assert t[|header|] == '.';
    var u := header + "." + payload;
    assert u == header + ['.'] + payload;
    SecondFieldAfterWord(header, '.', payload);
    assert u[|header|] == '.';
  }

  /** Only the middle segment is read: tokens with the same payload segment
      get the same decision whatever their header and signature segments
      hold, so a forged or expired token passes as well as a valid one. */
  lemma OnlyPayloadRead(decode: Decoder, role: Option<string>,
                        payload: string, header1: string, sig1: string, header2: string, sig2: string)
    requires '.' !in payload && '.' !in header1 && '.' !in header2
    ensures Decide(decode, Some(header1 + "." + payload + "." + sig1), role) ==
      Decide(decode, Some(header2 + "." + payload + "." + sig2), role)
  {
    PayloadOfToken(header1, payload, sig1);
    PayloadOfToken(header2, payload, sig2);
  }
}

=== FILE: routes.dfy ===
/** routes.js: the inventory and location API's own query helper. Its
    `formatQueryParams` types parameters by key, its `executeQuery` binds a
    fixed list of named slots whatever the query, and the two search handlers
    build their query text around a caller-chosen column. */
module Routes {
  import opened Json
  import opened Sql

  /** The column types fixed by key, whatever the value's type. `Image` is not
      among them: it is only reached after the string and number tests. */
  const FixedColumns: map<string, SqlType> := map[
    "ID" := UniqueIdentifier,
    "Name" := NVarChar(Chars(50)),
    "Description" := VarChar(Max),
    "Building" := NVarChar(Chars(50)),
    "Owner" := NVarChar(Chars(50)),
    "Username" := NVarChar(Chars(50)),
    "Role" := NVarChar(Chars(50)),
    "Location" := NVarChar(Chars(50))
  ]

  /** One iteration of `formatQueryParams`; `None` means the key is dropped. */
  function FormatValue(k: string, v: Value): (r: Option<Typed>)
    ensures r.Some? ==> r.value.value == v
    ensures k in FixedColumns ==> r.Some? && r.value.ty == FixedColumns[k]
    ensures k !in FixedColumns && v.Str? ==> r.Some? && r.value.ty == NVarChar(Chars(255))
    ensures k !in FixedColumns && v.Num? ==> r.Some? && r.value.ty == SmallInt
    ensures k !in FixedColumns && !v.Str? && !v.Num? ==>
      (r.Some? <==> k == "Image") && (r.Some? ==> r.value.ty == NVarChar(Max))
  {
    if k == "ID" then Some(Typed(UniqueIdentifier, v))
    else if k == "Name" then Some(Typed(NVarChar(Chars(50)), v))
    else if k == "Description" then Some(Typed(VarChar(Max), v))
    else if k == "Building" then Some(Typed(NVarChar(Chars(50)), v))
    else if k == "Owner" then Some(Typed(NVarChar(Chars(50)), v))
    else if k == "Username" then Some(Typed(NVarChar(Chars(50)), v))
    else if k == "Role" then Some(Typed(NVarChar(Chars(50)), v))
    else if k == "Location" then Some(Typed(NVarChar(Chars(50)), v))
    else if v.Str? then Some(Typed(NVarChar(Chars(255)), v))
    else if v.Num? then Some(Typed(SmallInt, v))
    else if k == "Image" then Some(Typed(NVarChar(Max), v))
    else None
  }

  /** A key this `formatQueryParams` keeps. */
  predicate Kept(k: string, v: Value) {
    k in FixedColumns || v.Str? || v.Num? || k == "Image"
  }

  /** `formatQueryParams(params)`; it never throws. */
  function FormatQueryParams(p: Params): (r: Formatted)
    ensures |r| <= |p|
  {
    if |p| == 0 then []
    else
      var rest := FormatQueryParams(p[1..]);
      match FormatValue(p[0].0, p[0].1)
      case Some(t) => [(p[0].0, t)] + rest
      case None => rest
  }

  /** Reading key `k` of the formatted object: the input's value, typed, when
      the input has the key and it is kept; nothing otherwise. */
  lemma {:induction false} LookupFormatted(p: Params, k: string)
    requires DistinctKeys(p)
    ensures Lookup(FormatQueryParams(p), k) ==
      (if HasKey(p, k) then FormatValue(k, Get(p, k)) else None)
  {
    if |p| > 0 {
      var rest := FormatQueryParams(p[1..]);
      assert DistinctKeys(p[1..]) by {
        forall i, j | 0 <= i < j < |p[1..]| ensures p[1..][i].0 != p[1..][j].0 {
          assert p[1..][i] == p[i + 1] && p[1..][j] == p[j + 1];
        }
      }
      LookupFormatted(p[1..], k);
      if p[0].0 == k {
        assert HasKey(p, k);
        if FormatValue(k, p[0].1).None? {
          assert !HasKey(p[1..], k) by {
            forall i | 0 <= i < |p[1..]| ensures p[1..][i].0 != k {
              assert p[1..][i] == p[i + 1];
            }
          }
        }
      } else {
        assert HasKey(p, k) <==> HasKey(p[1..], k) by {
          if HasKey(p, k) {
            var i :| 0 <= i < |p| && p[i].0 == k;
            assert p[1..][i - 1] == p[i];
          }
          if HasKey(p[1..], k) {
            var i :| 0 <= i < |p[1..]| && p[1..][i].0 == k;
            assert p[i + 1] == p[1..][i];
          }
        }
      }
    }
  }

  /** The named inputs `executeQuery` puts on every request, whatever the
      query. */
  datatype Slot =
    | FilterColumn | SearchValue | Id | Name | Building | Owner | Description
    | Location | Bin | Quantity | Image | Username | Role | PasswordHash

  /** The `@` name the slot binds. */
  function Label(n: Slot): string {
    match n
    case FilterColumn => "filterColumn"
    case SearchValue => "searchValue"
    case Id => "ID"
    case Name => "Name"
    case Building => "Building"
    case Owner => "Owner"
    case Description => "Description"
    case Location => "Location"
    case Bin => "Bin"
    case Quantity => "Quantity"
    case Image => "Image"
    case Username => "Username"
    case Role => "Role"
    case PasswordHash => "PasswordHash"
  }

  /** The type the slot declares. */
  function SlotType(n: Slot): SqlType {
    match n
    case FilterColumn | SearchValue => NVarChar(Chars(255))
    case Id => UniqueIdentifier
    case Description => VarChar(Max)
    case PasswordHash => VarChar(Max)
    case Quantity => SmallInt
    case Image => NVarChar(Max)
    case _ => NVarChar(Chars(50))
  }

  /** The formatted key whose value the slot actually reads. */
  function Source(n: Slot): string {
    match n
    case Building | Owner | Username | Role => "Name"
    case PasswordHash => "Description"
    case _ => Label(n)
  }

  /** `.input(label, type, formatted.source ? formatted.source.value : null)`
      for slot `n` of `executeQuery(query, params)`. */
  function BindSlot(p: Params, n: Slot): (t: Typed)
    ensures t.ty == SlotType(n)
    ensures Lookup(FormatQueryParams(p), Source(n)).None? ==> t.value == Null
    ensures Lookup(FormatQueryParams(p), Source(n)).Some? ==>
      t.value == Lookup(FormatQueryParams(p), Source(n)).value.value
  {
    Typed(SlotType(n), ValueOrNull(FormatQueryParams(p), Source(n)))
  }

  /** Each slot holds the value of the key it reads when the caller passed that
      key and `formatQueryParams` kept it, and `null` otherwise. */
  lemma SlotValue(p: Params, n: Slot)
    requires DistinctKeys(p)
    ensures var k := Source(n);
      BindSlot(p, n).value == (if HasKey(p, k) && Kept(k, Get(p, k)) then Get(p, k) else Null)
  {
    LookupFormatted(p, Source(n));
  }

  /** Exactly five slots never read their own key. */
  lemma MisreadSlots(n: Slot)
    ensures Source(n) != Label(n) <==> n in {Building, Owner, Username, Role, PasswordHash}
  {
    match n
    case Building | Owner | Username | Role | PasswordHash =>
    case _ => assert Source(n) == Label(n);
  }

  /** The Building, Owner, Username and Role slots are fed from `Name`, and the
      PasswordHash slot from `Description`. */
  lemma MiswiredSlots(p: Params)
    ensures && BindSlot(p, Building).value == BindSlot(p, Name).value
            && BindSlot(p, Owner).value == BindSlot(p, Name).value
            && BindSlot(p, Username).value == BindSlot(p, Name).value
            && BindSlot(p, Role).value == BindSlot(p, Name).value
            && BindSlot(p, PasswordHash).value == BindSlot(p, Description).value
  {
    assert Source(Building) == Source(Owner) == Source(Username) == Source(Role) == Source(Name);
    assert Source(PasswordHash) == Source(Description);
  }

  /** A parameter object without a `Name` key binds `null` as building and
      owner, even when it carries both. */
  lemma BuildingIgnored(building: string, owner: string)
    ensures var p := [("Building", Str(building)), ("Owner", Str(owner))];
      BindSlot(p, Building).value == Null && BindSlot(p, Owner).value == Null
  {
    var p := [("Building", Str(building)), ("Owner", Str(owner))];
    var f := FormatQueryParams(p);
    assert |f| <= 2 && forall i :: 0 <= i < |f| ==> f[i].0 in {"Building", "Owner"} by {
      assert FormatQueryParams(p[1..][1..]) == [];
      assert FormatQueryParams(p[1..]) == [("Owner", Typed(NVarChar(Chars(50)), Str(owner)))];
    }
    assert Lookup(f, "Name") == None;
  }

  /** `executeQuery(query)` with no parameters binds every slot to `null`. */
  lemma NoParamsAllNull(n: Slot)
    ensures BindSlot([], n).value == Null
  {
    assert FormatQueryParams([]) == [];
  }

  const OutOfStockUpdate := "UPDATE Items SET IsOutOfStock = " + "@IsOutOfStock" + " WHERE ID = @ID"

  /** The out-of-stock update names `@IsOutOfStock`, but no slot of that name is
      ever bound and a boolean flag is dropped by `formatQueryParams`. */
  lemma OutOfStockUnbound(id: Value, flag: bool)
    ensures "@IsOutOfStock" == OutOfStockUpdate[32..45]
    ensures forall n: Slot :: Label(n) != "IsOutOfStock"
    ensures Lookup(FormatQueryParams([("ID", id), ("IsOutOfStock", Bool(flag))]), "IsOutOfStock") == None
  {
    var head := "UPDATE Items SET IsOutOfStock = ";
    assert |head| == 32;
    assert OutOfStockUpdate[32..45] == "@IsOutOfStock";
  }

  datatype Table = Items | Locations

  function TableName(t: Table): string {
    match t
    case Items => "Items"
    case Locations => "Locations"
  }

  const ExactTail := " = @searchValue"
  const LikeTail := " LIKE '%' + @searchValue + '%'"

  /** The query text of the `/api/inventory` (`Items`) and `/api/locations`
      (`Locations`) search handlers. */
  function SearchQuery(t: Table, filterColumn: Value, exactMatch: Value): (q: string)
    // the column text is spliced in verbatim, unchecked
    ensures var head := "SELECT * FROM " + TableName(t) + " WHERE " + Interpolate(filterColumn);
      |head| <= |q| && q[..|head|] == head
    // and exactly one tail follows it, with nothing in between
    ensures var head := "SELECT * FROM " + TableName(t) + " WHERE " + Interpolate(filterColumn);
      |q| == |head| + (if exactMatch == Str("true") then |ExactTail| else |LikeTail|)
    // equality is used exactly when `exactMatch` is the string "true"
    ensures |q| >= |ExactTail| && q[|q| - |ExactTail|..] == ExactTail <==> exactMatch == Str("true")
    // any other value, an absent one included, gives a substring match
    ensures exactMatch != Str("true") ==> |q| >= |LikeTail| && q[|q| - |LikeTail|..] == LikeTail
  {
    var head := "SELECT * FROM " + TableName(t) + " WHERE " + Interpolate(filterColumn);
    if exactMatch == Str("true") then
      var q := head + ExactTail;
      assert q[..|head|] == head;
      assert q[|q| - |ExactTail|..] == ExactTail;
      q
    else
      var q := head + LikeTail;
      assert q[..|head|] == head;
      assert q[|q| - |LikeTail|..] == LikeTail;
      assert q[|q| - 1] == '\'';
      q
  }

  /** What a search request hands to the database: the query text, and the
      `searchValue` slot bound from `{ filterColumn, searchValue }`. All the
      other slots are bound as for any call, `@filterColumn` included, so a
      `filterColumn` text that names a slot reads that slot's bound value. */
  datatype SearchCall = SearchCall(text: string, searchValue: Typed)

  /** The `searchValue` slot of a search: the value itself when
      `formatQueryParams` keeps it (a string or a number), `null` otherwise. */
  lemma SearchValueSlot(filterColumn: Value, searchValue: Value)
    ensures BindSlot([("filterColumn", filterColumn), ("searchValue", searchValue)], SearchValue).value ==
      (if searchValue.Str? || searchValue.Num? then searchValue else Null)
  {
    var p := [("filterColumn", filterColumn), ("searchValue", searchValue)];
    assert Get(p, "searchValue") == Get(p[1..], "searchValue") == searchValue;
    assert HasKey(p, "searchValue") by { assert p[1].0 == "searchValue"; }
    SlotValue(p, SearchValue);
  }

  function Search(t: Table, query: Params): (c: SearchCall)
    // the `searchValue` slot: a string or number is bound unchanged, anything
    // else (an absent one included) as null
    ensures var v := Get(query, "searchValue");
      c.searchValue.value == (if v.Str? || v.Num? then v else Null)
    // the text is the one built for the route's table from the request's
    // `filterColumn` and `exactMatch`
    ensures c.text == SearchQuery(t, Get(query, "filterColumn"), Get(query, "exactMatch"))
  {
    var filterColumn := Get(query, "filterColumn");
    var searchValue := Get(query, "searchValue");
    SearchValueSlot(filterColumn, searchValue);
    SearchCall(SearchQuery(t, filterColumn, Get(query, "exactMatch")),
               BindSlot([("filterColumn", filterColumn), ("searchValue", searchValue)], SearchValue))
  }
}

=== FILE: scenario.dfy ===
/** The auth routes as `setupAuthRoutes` would mount them (server.js calls
    only `setupRoutes`, so they are modelled as if mounted): request bodies
    read by key, the register route with no gate in front of it, and a token
    issued at login presented to the token and role gates. */
module Scenario {
  import opened Json
  import opened Text
  import opened Http
  import opened AuthMiddleware
  import opened AuthRoutes

  /** `app.post('/auth/register', handler)` with no middleware: the handler
      sees the body only. */
  function RegisterRoute(c: Crypto, t: Table, uuid: string, req: Request): RegisterOutcome {
    Register(c, t, uuid, Get(req.body, "Username"), Get(req.body, "Password"), Get(req.body, "Role"))
  }

  /** `app.post('/auth/login', handler)`. */
  function LoginRoute(c: Crypto, t: Table, req: Request): Response {
    Login(c, t, Get(req.body, "Username"), Get(req.body, "password"))
  }

  /** A registration body. */
  function RegisterBody(username: string, password: string, role: string): Params {
    [("Username", Str(username)), ("Password", Str(password)), ("Role", Str(role))]
  }

  /** The handler reads back the three fields the body was built from. */
  lemma RegisterFields(username: string, password: string, role: string)
    ensures var body := RegisterBody(username, password, role);
      && Get(body, "Username") == Str(username)
      && Get(body, "Password") == Str(password)
      && Get(body, "Role") == Str(role)
  {
    var body := RegisterBody(username, password, role);
    assert Get(body, "Password") == Get(body[1..], "Password");
    assert Get(body, "Role") == Get(body[1..], "Role") == Get(body[1..][1..], "Role");
  }

  /** Anyone can register anyone with any role: whatever the request's
      `Authorization` header and identity, none at all or a token carrying a
      non-admin role, a body naming a fresh user creates the account. */
  lemma RegisterUngated(c: Crypto, t: Table, uuid: string, authorization: Option<string>, user: Option<Claims>,
                        username: string, password: string, role: string)
    requires username != "" && password != "" && role != ""
    requires !Known(t, Lower(username))
    ensures var r := RegisterRoute(c, t, uuid, Request(authorization, RegisterBody(username, password, role), user));
      r.response.status == 201 &&
      r.table == t + [UserRecord(uuid, Lower(username), c.hash(password), role)]
  {
    var req := Request(authorization, RegisterBody(username, password, role), user);
    RegisterFields(username, password, role);
    var r := Register(c, t, uuid, Str(username), Str(password), Str(role));
    assert r.response.status == 201;
    assert RegisterRoute(c, t, uuid, req) == r;
  }

  /** A login body; the handler reads the password under `password`, not the
      `Password` that registration reads. */
  function LoginBody(username: string, password: string): Params {
    [("Username", Str(username)), ("password", Str(password))]
  }

  /** The login handler reads back the two fields the body was built from. */
  lemma LoginFields(username: string, password: string)
    ensures var body := LoginBody(username, password);
      Get(body, "Username") == Str(username) && Get(body, "password") == Str(password)
  {
    var body := LoginBody(username, password);
    assert Get(body, "password") == Get(body[1..], "password");
  }

  /** A token issued at login, presented as `Bearer <token>`, clears the role
      gate exactly when the role given at registration is, character for
      character, the required one. The token library is assumed to give back
      a payload that carries the signed role; it may add other claims, such
      as the issue and expiry times. */
  lemma IssuedTokenMeetsRoleGate(c: Crypto, verify: Verifier, t: Table, uuid: string,
                                 username: string, password: string, role: string, required: string)
    requires HashSound(c)
    requires Register(c, t, uuid, Str(username), Str(password), Str(role)).response.status == 201
    requires var token := c.sign(map["Username" := Str(Lower(username)), "role" := Str(role)], TokenLifetime);
      && ' ' !in token && token != ""
      && verify(token).Some? && "role" in verify(token).value && verify(token).value["role"] == Str(role)
    ensures var t' := Register(c, t, uuid, Str(username), Str(password), Str(role)).table;
      var answer := LoginRoute(c, t', Request(None, LoginBody(username, password), None));
      && answer.status == 200
      && (Guard(verify, required, Request(Some("Bearer " + answer.body.token), [], None)).action.CallNext?
          <==> role == required)
  {
    LoginFields(username, password);
    RegisterThenLogin(c, t, uuid, username, password, role, username);
    var token := c.sign(map["Username" := Str(Lower(username)), "role" := Str(role)], TokenLifetime);
    BearerTokenMeetsRoleGate(verify, Request(None, [], None), token, verify(token).value, required);
  }
}

=== FILE: sql.dfy ===
/** The SQL-side vocabulary shared by the three query helpers: the `mssql`
    driver's type tags, a typed parameter, and one `request.input(...)` call. */
module Sql {
  import opened Json

  /** The length argument of a character type; `Max` is `sql.MAX`. */
  datatype Length = Max | Chars(n: nat)

  datatype SqlType =
    | UniqueIdentifier
    | NVarChar(len: Length)
    | VarChar(len: Length)
    | Int
    | SmallInt
    | Image

  /** One entry `{ type, value }` of a formatted parameter object. */
  datatype Typed = Typed(ty: SqlType, value: Value)

  /** A formatted parameter object, keys in insertion order. */
  type Formatted = seq<(string, Typed)>

  /** One `request.input(name, type, value)` call on a prepared request. */
  datatype Input = Input(name: string, ty: SqlType, value: Value)

  /** `formatted.k`, `None` when the key was never assigned. */
  function Lookup(f: Formatted, k: string): (r: Option<Typed>)
    ensures r.Some? ==> exists i :: 0 <= i < |f| && f[i] == (k, r.value)
    ensures r.None? <==> forall i :: 0 <= i < |f| ==> f[i].0 != k
  {
    if |f| == 0 then None
    else if f[0].0 == k then Some(f[0].1)
    else Lookup(f[1..], k)
  }

  /** `formatted.k ? formatted.k.value : null`: an assigned entry is an object
      and so always truthy, even when the value inside it is not. */
  function ValueOrNull(f: Formatted, k: string): (v: Value)
    ensures Lookup(f, k).None? ==> v == Null
    ensures Lookup(f, k).Some? ==> v == Lookup(f, k).value.value
  {
    match Lookup(f, k)
    case Some(t) => t.value
    case None => Null
  }
}

=== FILE: text.dfy ===
/** String operations the handlers rely on: case mapping (`toLowerCase`,
    `toUpperCase`, SQL `LOWER`) and `split` on a one-character separator. */
module Text {
  import opened Json

  /** Case maps over ASCII letters; every other character is left alone. */
  function LowerChar(c: char): char {
    if 'A' <= c <= 'Z' then (c as int + 32) as char else c
  }

  function UpperChar(c: char): char {
    if 'a' <= c <= 'z' then (c as int - 32) as char else c
  }

  function Lower(s: string): (r: string)
    ensures |r| == |s|
    ensures forall i :: 0 <= i < |s| ==> r[i] == LowerChar(s[i])
  {
    seq(|s|, i requires 0 <= i < |s| => LowerChar(s[i]))
  }

  function Upper(s: string): (r: string)
    ensures |r| == |s|
    ensures forall i :: 0 <= i < |s| ==> r[i] == UpperChar(s[i])
  {
    seq(|s|, i requires 0 <= i < |s| => UpperChar(s[i]))
  }

  /** Lower-casing twice is lower-casing once. */
  lemma LowerIdempotent(s: string)
    ensures Lower(Lower(s)) == Lower(s)
  {
  }

  /** Upper-casing forgets the case of the input: the lower-cased and the
      original string upper-case alike. */
  lemma UpperOfLower(s: string)
    ensures Upper(Lower(s)) == Upper(s)
  {
  }

  /** `s.split(c)`: the maximal runs between occurrences of `c`, empty runs
      included, so there is always at least one field. */
  function Split(s: string, c: char): (r: seq<string>)
    ensures |r| >= 1
    ensures forall i :: 0 <= i < |r| ==> c !in r[i]
  {
    if |s| == 0 then [""]
    else
      var rest := Split(s[1..], c);
      if s[0] == c then [""] + rest
      else [[s[0]] + rest[0]] + rest[1..]
  }

  /** The inverse of `Split`: the fields glued back with the separator. */
  function Join(parts: seq<string>, c: char): string
    requires |parts| >= 1
  {
    if |parts| == 1 then parts[0] else parts[0] + [c] + Join(parts[1..], c)
  }

  lemma {:induction false} JoinSplit(s: string, c: char)
    ensures Join(Split(s, c), c) == s
  {
    if |s| == 0 {
    } else {
      var rest := Split(s[1..], c);
      JoinSplit(s[1..], c);
      if s[0] == c {
        assert Split(s, c) == [""] + rest;
        assert ([""] + rest)[1..] == rest;
      } else {
        var parts := [[s[0]] + rest[0]] + rest[1..];
        assert Split(s, c) == parts;
        if |rest| == 1 {
          assert Join(parts, c) == [s[0]] + rest[0];
        } else {
          assert parts[1..] == rest[1..];
          assert Join(parts, c) == [s[0]] + rest[0] + [c] + Join(rest[1..], c);
          assert Join(rest, c) == rest[0] + [c] + Join(rest[1..], c);
        }
        assert s == [s[0]] + s[1..];
      }
    }
  }

  /** Without a separator the whole string is the only field. */
  lemma {:induction false} SplitWithoutSeparator(s: string, c: char)
    requires c !in s
    ensures Split(s, c) == [s]
  {
    if |s| > 0 {
      SplitWithoutSeparator(s[1..], c);
      assert [s[0]] + s[1..] == s;
    }
  }

  /** A separator-free word followed by the separator is split off as the
      first field; the rest is split on its own. */
  lemma {:induction false} SplitAfterWord(w: string, c: char, t: string)
    requires c !in w
    ensures Split(w + [c] + t, c) == [w] + Split(t, c)
  {
    if |w| == 0 {
      assert w + [c] + t == [c] + t;
      assert ([c] + t)[1..] == t;
    } else {
      var s := w + [c] + t;
      assert s[1..] == w[1..] + [c] + t;
      SplitAfterWord(w[1..], c, t);
      assert [w[0]] + w[1..] == w;
    }
  }

  /** `s.split(c)[1]`: the second field, or `None` (JavaScript's `undefined`)
      when there is only one. */
  function SecondField(s: string, c: char): (r: Option<string>)
    ensures r.Some? ==> c !in r.value
  {
    var parts := Split(s, c);
    if |parts| > 1 then Some(parts[1]) else None
  }

  /** The text before the first separator (the whole string if it has none). */
  function FirstField(s: string, c: char): (r: string)
    ensures c !in r
    ensures c !in s ==> r == s
  {
    if c in s then Split(s, c)[0] else s
  }

  /** There is a second field exactly when the separator occurs. */
  lemma {:induction false} SecondFieldPresence(s: string, c: char)
    ensures SecondField(s, c).None? <==> c !in s
  {
    if c !in s {
      SplitWithoutSeparator(s, c);
    } else {
      var i := FirstIndex(s, c);
      assert s == s[..i] + [c] + s[i+1..];
      SplitAfterWord(s[..i], c, s[i+1..]);
    }
  }

  /** The position of the first occurrence of `c` in `s`. */
  function FirstIndex(s: string, c: char): (i: nat)
    requires c in s
    ensures i < |s| && s[i] == c && c !in s[..i]
  {
    if s[0] == c then 0
    else
      assert c in s[1..] by { var k :| 0 <= k < |s| && s[k] == c; assert s[1..][k-1] == c; }
      var j := FirstIndex(s[1..], c);
      assert s[..j+1] == [s[0]] + s[1..][..j];
      j + 1
  }

  /** The second field of `w c t`, for a separator-free `w`, is the first
      field of `t`: whatever `w` is, it is skipped unread. */
  lemma SecondFieldAfterWord(w: string, c: char, t: string)
    requires c !in w
    ensures SecondField(w + [c] + t, c) == Some(FirstField(t, c))
  {
    SplitAfterWord(w, c, t);
    if c !in t {
      SplitWithoutSeparator(t, c);
    }
  }
}
